=== FILE: README.md ===
# Query Force credential store and request façade, in Dafny

This project models the small sequential core of the Query Force desktop
client, a Tauri app that keeps credentials for remote API instances and talks
to them over HTTP:

- **Keychain store** (`src-tauri/src/main.rs`). Credentials live in the OS
  keychain, one record per generated id. A reserved entry (`__ids_index__`)
  holds an `{id, label}` index. `write_index` stores the index sorted by id
  with duplicate ids removed. The commands create, save, load by label, load
  by id, load all and delete keep the records and the index in step.
- **Request façade** (`app/composables/HTTP.ts`). Headers are built from the
  bearer's truthiness and the body's shape, and caller headers are merged
  over them. The verb wrappers fix the method. `resend` re-issues the same
  request to a new URL and overwrites the original handle's `data`.
- **Credential cache** (`app/composables/useCredentials.ts`). A state
  `{list, loading, error}` advanced by `loadAll`, `load` and `save`. Each
  action clears the error, calls one channel command and records any failure.
  `save` never patches the list itself: it reloads.
- **Connection list store** (`app/stores/connections.ts`). Id-addressed
  toggle/connect/disconnect change the first matching item. Two getters
  split the list by status.
- **Instance metadata store** (`app/stores/instanceMeta.ts`). Holds the
  bearer and the object description. `purge` clears only the description.
- **Token exchange** (`app/composables/useSalesforceAuthentication.ts`).
  Builds the OAuth 2.0 client-credentials request (section 4.4 of RFC 6749)
  and sends it through a façade with no bearer.

Everything is modelled with immutable datatypes and pure functions. Each
stateful component is a state record plus transition functions. Whatever
the environment decides comes in as a parameter:

- the keychain answering a write or delete (`Keychain.Effect`);
- a record that cannot be read, modelled as a missing map key;
- a freshly generated UUID;
- the reply to a channel command (`Result<T, Thrown>`);
- the data and error slots a fetch handle holds (`Http.Response`);
- the server-context and Tauri-runtime flags (`CredentialCache.Env`).

`label` is a Dafny keyword, so the label field is called `name` throughout.

### Behaviour worth noting

- Labels are not unique. `save_credentials` always creates a new entry.
  `load_credentials` returns the first index item with the label, and the
  stored index is in id order.
- `authenticate` never publishes a token. It only logs: the handle's error
  when that is set, and its data otherwise, as they stand when its `await`
  returns. The metadata store is unchanged
  (`Authentication.Authenticate`).
- `Authorization` depends on the bearer being *truthy*. An empty-string
  bearer therefore sends no `Authorization` header, just like `null`.
- `Content-Type: application/json` is set for *any* non-null object other
  than `FormData`, arrays included. The `Json` body variant stands for all
  of these.
- The headers passed to the `HTTP` constructor are stored but never merged
  into a request (`Http.RequestIgnoresDefaults`).
- Deleting the id `__ids_index__` deletes the index entry itself. The index
  then reads as empty and is rewritten as `[]` (`Keychain.Delete`).

## Model

| member | source | states |
|---|---|---|
| KeychainIndex.NormalizeCanonical | src-tauri/src/main.rs:52-55 | the index as written is strictly sorted by id (no duplicate ids) and holds, for every id, exactly the first input item with that id (stable sort then `dedup_by`) |
| KeychainIndex.NormalizeUnique | src-tauri/src/main.rs:52-55 | a sequence is strictly sorted and agrees with the input on the first item of every id exactly when it is the written index; this is an independent characterisation of sort-then-dedup |
| KeychainIndex.SortByIdFirst | src-tauri/src/main.rs:54 | sorting keeps the first item of every id: for every id, the first item carrying it is the same before and after sorting |
| KeychainIndex.DedupFirst | src-tauri/src/main.rs:55 | removing consecutive duplicate ids keeps the first item of every id |
| KeychainIndex.NormalizeIdempotent | src-tauri/src/main.rs:52-55 | writing an already written index changes nothing |
| KeychainIndex.NormalizeStrictlySorted | src-tauri/src/main.rs:52-55 | an index already strictly sorted by id is stored unchanged |
| KeychainIndex.NormalizeIds | src-tauri/src/main.rs:52-55 | the written index has exactly the ids of its input |
| KeychainIndex.NormalizeAppendFresh | src-tauri/src/main.rs:109-114 | pushing an item with a new id onto a sorted index and writing it yields exactly the old items plus the new one |
| KeychainIndex.RetainMembers | src-tauri/src/main.rs:202 | `retain` keeps exactly the items whose id differs from the deleted one, and never grows the index |
| KeychainIndex.RetainAppend | src-tauri/src/main.rs:202 | `retain` distributes over concatenation, so the kept items keep their relative order |
| Keychain.ReadIndex | src-tauri/src/main.rs:40-50 | a missing index entry reads as the empty index; any other read or parse failure is returned as an error |
| Keychain.WriteIndex | src-tauri/src/main.rs:52-64 | a successful write stores the canonical (sorted, deduplicated) form of the items; a failed write leaves the keychain as it was |
| Keychain.Create | src-tauri/src/main.rs:89-123 | succeeds exactly when the record write, the index read and the index write all succeed; returns the inputs plus the new id; a failed record write changes nothing; after the record write the record stays even if an index step fails, a failing index step passes on its own read or write error, and a failure leaves the index untouched |
| Keychain.CreateIndexesNewRecord | src-tauri/src/main.rs:105-114 | after a successful create the index holds exactly the old items plus `{id, label}`; create keeps the store well formed |
| Keychain.Save | src-tauri/src/main.rs:127-135 | `save_credentials` has the same effect on the keychain as `create_credentials` and fails exactly when it does, returning nothing |
| Keychain.SaveTwiceKeepsBoth | src-tauri/src/main.rs:127-135 | saving one label twice, even with a different URL, client id or secret, leaves two index entries under two distinct ids, both with that label, and both records exactly as saved; the first record is never updated |
| Keychain.FindByName | src-tauri/src/main.rs:141 | `find` returns the position of the first item with the label, and nothing exactly when no item has it |
| Keychain.LoadByLabel | src-tauri/src/main.rs:139-152 | whenever the index reads and some item has the label, returns exactly the record of the first such item, or its record-read error; errors when the index cannot be read, when no item carries the label (and only then with the not-found error), or when that item's record cannot be read |
| Keychain.LoadById | src-tauri/src/main.rs:156-165 | succeeds exactly when a record is stored under the id, returning it; in a well-formed store that record carries the requested id |
| Keychain.LoadAllCredentials | src-tauri/src/main.rs:169-188 | the loop fails only when the index cannot be read, and then with that error; otherwise it returns the readable records in index order, no more than the index length |
| Keychain.CollectMembers | src-tauri/src/main.rs:173-185 | a record is in the load-all output exactly when some index item's id has a readable record equal to it; unreadable items are skipped |
| Keychain.CollectAppend | src-tauri/src/main.rs:173-185 | load-all distributes over concatenation of the index, so output order follows index order |
| Keychain.Delete | src-tauri/src/main.rs:192-204 | succeeds whether or not the record existed, and fails exactly when the keychain delete, the index read or the index write fails; a failed keychain delete changes nothing; a failing index step passes on its own read or write error; afterwards no record and (on success) no index item has the id; deleting `__ids_index__` leaves the index entry gone even when the rewrite fails |
| Keychain.DeleteRetainsOthers | src-tauri/src/main.rs:200-203 | a successful delete leaves the index equal to the old index minus the items with that id, in order; delete keeps the store well formed |
| Keychain.DeleteIdempotent | src-tauri/src/main.rs:192-204 | deleting the same id twice gives the same keychain and reply as deleting it once |
| Http.BuildHeaders | app/composables/HTTP.ts:18-36 | `Authorization: Bearer <token>` exactly when the bearer is truthy; `Content-Type: application/json` exactly for a non-form object body; `Accept: application/json` always; no other header |
| Http.BuildHeadersByShape | app/composables/HTTP.ts:18-36 | the built headers depend only on the bearer's truthiness and value and on whether the body is a non-form object |
| Http.Merge | app/composables/HTTP.ts:47 | caller headers override computed ones, and computed headers the caller did not supply are kept |
| Http.Request | app/composables/HTTP.ts:42-56 | method and body pass through unchanged, the headers are the merge of built and caller headers, and `lazy` selects the deferred fetch, otherwise the eager one |
| Http.CallerAuthorizationWins | app/composables/HTTP.ts:47 | a caller-supplied `Authorization` is what is sent, whatever the bearer |
| Http.RequestIgnoresDefaults | app/composables/HTTP.ts:12-16 | the headers given to the constructor have no influence on any request |
| Http.CreateMethod | app/composables/HTTP.ts:58-75 | fixes the method, forwards headers, body and `lazy` unchanged, and returns a handle that captures the calling client and URL and whose request is the one that client and those options produce |
| Http.Get | app/composables/HTTP.ts:77-79 | a GET with no body and the caller's other options, through the calling client; the handle captures exactly these options |
| Http.Delete | app/composables/HTTP.ts:81-83 | a DELETE with no body and the caller's other options, through the calling client; the handle captures exactly these options |
| Http.Post | app/composables/HTTP.ts:85-87 | a POST with the caller's body and other options, through the calling client; the handle captures exactly these options |
| Http.Put | app/composables/HTTP.ts:89-91 | a PUT with the caller's body and other options, through the calling client; the handle captures exactly these options |
| Http.Resend | app/composables/HTTP.ts:67-72 | requests the new URL with the original method, headers, body and fetch mode; once it settles, the original handle's `data` is the new data and nothing else on it changes |
| Http.ResendAfterGet | app/composables/HTTP.ts:58-79 | a resend on a handle from `get` issues a GET with the original headers and no body to the new URL, and the original handle then holds the new data |
| Http.ResendLastWriteWins | app/composables/HTTP.ts:67-72 | after two resends on one handle, the request of the second is unaffected by the first and the second's data is what the handle holds |
| CredentialCache.EnsureClient | app/composables/useCredentials.ts:11-17 | throws exactly in a server context, with the client-only message |
| CredentialCache.LoadAllStarted | app/composables/useCredentials.ts:45-47 | while `load_all_credentials` is in flight, `loading` is true and `error` is null, with the list untouched |
| CredentialCache.ErrorCleared | app/composables/useCredentials.ts:60-63 | before `load` or `save` invokes its command, `error` is null and nothing else has changed |
| CredentialCache.LoadAll | app/composables/useCredentials.ts:44-58 | on success the list becomes exactly the returned items, they are returned and `error` stays null; on failure the list is kept, `error` holds the formatted message and the failure is rethrown; `loading` ends false either way; in a server context it throws before invoking anything |
| CredentialCache.Load | app/composables/useCredentials.ts:60-70 | never changes the list or `loading`; returns the reply or rethrows it, leaving `error` null or set to the formatted message |
| CredentialCache.Save | app/composables/useCredentials.ts:72-88 | invokes `save_credentials` and, only if that succeeds, `load_all_credentials`; the list changes only to the reload's items; a failure at either step is recorded and rethrown, so a failed reload after a successful write keeps the old list |
| CredentialCache.SaveListIsReloadList | app/composables/useCredentials.ts:76-83 | after a successful write, `save` leaves the same list and error as `loadAll` given the same reply |
| CredentialCache.ActionsKeepIdle | app/composables/useCredentials.ts:44-88 | from an idle state every action ends idle; `load` never touches `loading` |
| CredentialCache.LoadAllRecovers | app/composables/useCredentials.ts:44-58 | a failed `loadAll` keeps the list and sets an error; a following successful one replaces the list and clears the error |
| CredentialCache.UseCredentials | app/composables/useCredentials.ts:32-92 | construction throws in a server context before any command; a missing Tauri runtime only warns; with `autoLoad` it invokes `load_all_credentials` once without awaiting it, so the cache is handed back empty, loading and error-free with the load pending; without it the cache is empty and idle |
| CredentialCache.LoadAllSettled | app/composables/useCredentials.ts:48-56 | a settling `load_all_credentials` reply replaces the list or records the formatted error on whatever state is current, and always ends `loading` |
| CredentialCache.AutoLoadSettles | app/composables/useCredentials.ts:44-92 | if nothing else runs first, the pending auto-load leaves the cache as an awaited `loadAll` on a fresh cache would, with a failure kept as the recorded error instead of thrown |
| EndToEnd.SaveThenListHoldsRecord | app/composables/useCredentials.ts:76-83 | when the keychain accepts the writes, the cache's list after `save` holds the new record with its label and fresh id |
| Connections.FindById | app/stores/connections.ts:21 | locates the first item with the id, or nothing exactly when no item has it |
| Connections.UpdateFirst | app/stores/connections.ts:20-33 | only the first item with the id changes, and only its `connected` flag; an unknown id changes nothing |
| Connections.UpdateFirstKeepsIds | app/stores/connections.ts:20-33 | the id-addressed actions never change which item an id finds |
| Connections.SetConnections | app/stores/connections.ts:16-18 | the item list becomes exactly the given list |
| Connections.SetConnectionsForgets | app/stores/connections.ts:16-18 | the result of `setConnections` does not depend on the previous list |
| Connections.Toggle | app/stores/connections.ts:20-23 | flips `connected` on the first item with the id and keeps the list length |
| Connections.ToggleTwice | app/stores/connections.ts:20-23 | toggling the same id twice restores the store |
| Connections.Connect | app/stores/connections.ts:25-28 | sets `connected` on the first item with the id |
| Connections.Disconnect | app/stores/connections.ts:30-33 | clears `connected` on the first item with the id |
| Connections.ConnectIdempotent | app/stores/connections.ts:25-33 | connecting twice equals connecting once, and disconnecting twice equals disconnecting once |
| Connections.GettersPartition | app/stores/connections.ts:9-13 | `connected` and `disconnected` together hold every item exactly once, each item in the one matching its flag |
| Connections.FilterAppend | app/stores/connections.ts:11-12 | both getters distribute over concatenation, so they keep list order |
| InstanceMeta.Initial | app/stores/instanceMeta.ts:4-8 | initially bearer and object description are both null |
| InstanceMeta.SetBearer | app/stores/instanceMeta.ts:16-18 | sets the bearer and leaves the object description unchanged |
| InstanceMeta.SetSobjects | app/stores/instanceMeta.ts:20-22 | sets the object description and leaves the bearer unchanged |
| InstanceMeta.Purge | app/stores/instanceMeta.ts:24-26 | clears the object description and leaves the bearer unchanged |
| InstanceMeta.PurgeIdempotent | app/stores/instanceMeta.ts:24-26 | purging twice equals purging once, and a purge erases any earlier `setSobjects` |
| InstanceMeta.SettersCommute | app/stores/instanceMeta.ts:16-22 | the two setters touch disjoint fields, so their order does not matter |
| Authentication.TokenForm | app/composables/useSalesforceAuthentication.ts:11-19 | the form has exactly three fields, in order: `grant_type=client_credentials`, `client_id`, `client_secret`, taken from the record |
| Authentication.TokenEndpoint | app/composables/useSalesforceAuthentication.ts:21 | the endpoint is the record's URL followed verbatim by `/services/oauth2/token` |
| Authentication.Authenticate | app/composables/useSalesforceAuthentication.ts:10-31 | one eager POST of that form to that endpoint, sent with `Accept: application/json` as its only header (no bearer, form body); the error is logged if there is one and the data otherwise; the metadata store is unchanged |
| Authentication.AuthenticateNeverPublishes | app/composables/useSalesforceAuthentication.ts:5-31 | whatever the endpoint answers, the stored bearer is unchanged and the request sent is the same |

## Left out

- Keychain access itself (`keyring::Entry`), JSON encoding and decoding, and
  UUID generation are OS and library calls. The keychain is a map, an entry
  that fails to initialise or to read is a missing key or `Unreadable`, and
  a write or delete outcome is a parameter.
- Keychain.Create: the generated UUID is a parameter. The lemmas about
  create and save assume it is fresh: it names no record and no index item,
  and it is not the index username. A UUID equal to an existing record id
  is modelled by `Create` itself (the record is overwritten and the index
  keeps its earlier item) but no property is claimed about it.
- Authentication.Authenticate: the logged data and error are the handle's
  slots at the moment `await http.post(...)` returns, given as a
  parameter. Whether that `await` waits for the POST to settle depends on
  the fetch layer: the wrapper returns a spread copy of the fetch result,
  which may no longer be awaitable, and then the slots are read while the
  request is still in flight (no error, no data yet). That timing is not
  modelled.
- Error message texts. Errors keep the step that produced them and the
  reason the keychain gave, not the formatted string.
- The Tauri bootstrap `main` and handler registration are framework
  plumbing.
- `useFetch`/`useLazyFetch`, `useRuntimeConfig` and the network. A request
  is the value handed to the fetch layer, and its outcome is a parameter.
  The deferred fetch's trigger belongs to the fetch layer.
- Http.Resend: concurrent resends on one handle are not modelled. Each
  resend is one atomic step, and the order in which they settle is the
  order of the calls.
- Caller headers whose value is `undefined` are not modelled. A caller
  header set is a map from name to string.
- The fallback `options || { method: "get", headers: {} }` in the private
  `resend` is not modelled. It cannot be taken, because the parsed options
  are always an object.
- A body passed to `get`/`delete` despite their types is not modelled.
  Those wrappers carry no body.
- Connections.UpdateFirst: items are values. The store mutates the object
  `find` returns in place, and `setConnections` keeps the caller's own
  array, so an object listed twice changes at both positions and the
  caller's array sees every change. Object identity and aliasing are not
  modelled; the model assumes each item object is listed once and owned by
  the store.
- EndToEnd.SaveThenListHoldsRecord: assumes the command channel hands the
  frontend's `label`, `url`, `client_id` and `client_secret` keys to the
  Rust parameters of the same names (this is what `Relay` stands for). The
  framework's mapping of argument names, which by default expects
  camelCase keys such as `clientId`, is not part of this model; under that
  default the save would be rejected before any keychain write.
- InstanceMeta.SetBearer, InstanceMeta.SetSobjects and InstanceMeta.Purge:
  the store declares getters `bearer` and `sobjects` with the same names as
  its state fields. How the store library resolves that clash (which of the
  two the store exposes, and whether the actions' writes then reach the
  state) is not modelled; the model takes each action as the plain field
  write its body spells out.
- Vue/Pinia reactivity. `import.meta.server` and the Tauri-runtime probe are
  the two flags of `CredentialCache.Env`.
- Asynchrony. Each awaited cache action is one step; the un-awaited
  auto-load of `useCredentials` is the one exception, settled by
  `LoadAllSettled` on whatever state is current then. The in-flight state is given by
  `LoadAllStarted` and `ErrorCleared`.
- Console output. Only the warning flag of `useCredentials` and the log
  line of `authenticate` are kept.
- `formatErr`'s `JSON.stringify`/`String` fallback. A non-`Error` thrown
  value carries its string form directly.
- Rust's `String::cmp` compares UTF-8 bytes. The model compares characters
  lexicographically, which gives the same order for well-formed strings.
- `nuxt.config.ts`, `app/types/auth.ts` and `app/composables/useConnections.ts`
  have no logic. `app/types/http.ts` and `app/types/index.ts` only shape the
  datatypes. The `Credentials` type in `app/types/index.ts` (with
  `clientId`) disagrees with what the code uses. The model uses the
  fields that the commands and `useCredentials.ts` actually exchange.

=== FILE: authentication.dfy ===
/**
 * The token exchange: given a stored credential, post an OAuth 2.0
 * client-credentials grant (section 4.4 of RFC 6749) as a multipart form to
 * the instance's token endpoint, through a façade built without a bearer.
 * The outcome is only logged; the instance metadata store is never written.
 */
module Authentication {
  import opened Common
  import opened Http
  import Keychain
  import InstanceMeta

  const GrantType: string := "client_credentials"
  const TokenPath: string := "/services/oauth2/token"

  /** The unauthenticated façade the exchange goes through: no bearer, no default headers. */
  const TokenClient: Client := Client(None, map[])

  /** The form fields, in the order they are appended. */
  function TokenForm(c: Keychain.Credential): (f: seq<Field>)
    ensures |f| == 3
    ensures f[0] == Field("grant_type", GrantType)
    ensures f[1] == Field("client_id", c.clientId)
    ensures f[2] == Field("client_secret", c.clientSecret)
  {
    [Field("grant_type", GrantType), Field("client_id", c.clientId), Field("client_secret", c.clientSecret)]
  }

  /** The token endpoint: the credential's base URL with the token path appended verbatim (no slash handling). */
  function TokenEndpoint(c: Keychain.Credential): (u: string)
    ensures |u| == |c.url| + |TokenPath|
    ensures u[..|c.url|] == c.url && u[|c.url|..] == TokenPath
  {
    c.url + TokenPath
  }

  /** What `authenticate` writes to the console. */
  datatype Log<D> = LoggedError(error: string) | LoggedData(data: Option<D>)

  /** The effect of one `authenticate` call: the metadata store afterwards, the request sent, and the log line. */
  datatype Attempt<D> = Attempt(meta: InstanceMeta.Meta, request: Handle<D>, log: Log<D>)

  /**
   * `authenticate(creds)`: one eager POST of the token form to the token
   * endpoint, with `Accept: application/json` as its only header. The
   * handle's error is logged when it is set, its data otherwise, as the
   * slots stand when the `await` returns; the store is unchanged.
   */
  function Authenticate<D>(meta: InstanceMeta.Meta, c: Keychain.Credential, response: Response<D>): (r: Attempt<D>)
    ensures r.meta == meta
    ensures r.request.fetch.verb == POST && r.request.fetch.mode == Eager
    ensures r.request.fetch.url == TokenEndpoint(c)
    ensures r.request.fetch.body == Form(TokenForm(c))
    ensures r.request.fetch.headers == map[Accept := ApplicationJson]
    ensures r.log == (if response.error.Some? then LoggedError(response.error.value) else LoggedData(response.data))
  {
    var h := Post(TokenClient, TokenEndpoint(c), Extras(map[], false), Form(TokenForm(c)), response);
    assert h.fetch.headers.Keys == {Accept};
    var line := match h.error
      case Some(e) => LoggedError(e)
      case None => LoggedData(h.data);
    Attempt(meta, h, line)
  }

  /** Whatever the token endpoint answers, the bearer in the store stays what it was. */
  lemma AuthenticateNeverPublishes<D>(meta: InstanceMeta.Meta, c: Keychain.Credential, r1: Response<D>, r2: Response<D>)
    ensures Authenticate(meta, c, r1).meta.bearer == meta.bearer
    ensures Authenticate(meta, c, r1).request.fetch == Authenticate(meta, c, r2).request.fetch
  {
  }
}

=== FILE: common.dfy ===
/**
 * Option and Result types shared by every component of the model.
 */
module Common {

  /** A value that may be absent: the model's rendering of `null`/`undefined`. */
  datatype Option<+T> = None | Some(value: T)

  /** Success with a value, or failure with an error: the model's rendering of Rust's `Result`. */
  datatype Result<+T, +E> = Ok(value: T) | Err(error: E)

  /** The unit value that a command returning `Result<(), String>` succeeds with. */
  datatype Unit = Unit
}

=== FILE: connections.dfy ===
/**
 * The connection list store: a list of connection items, replaced wholesale
 * or updated by id, and two getters that split it by connection status.
 * The id-addressed actions change the first item with that id and nothing
 * else, as `find` followed by a field assignment does.
 */
module Connections {
  import opened Common

  /** One connection in the sidebar. `icon` is an opaque component reference. */
  datatype ConnectionItem = ConnectionItem(id: string, title: string, url: string, icon: string, connected: bool)

  /** The store's state. */
  datatype Store = Store(items: seq<ConnectionItem>)

  /** What an id-addressed action does to the `connected` flag of the item it finds. */
  datatype Action = Flip | SetTo(value: bool)

  function Apply(a: Action, connected: bool): bool {
    match a
    case Flip => !connected
    case SetTo(v) => v
  }

  /** The position of the first item with the given id, as `find` locates it. */
  function FindById(items: seq<ConnectionItem>, id: string): (r: Option<nat>)
    ensures r.Some? ==> r.value < |items| && items[r.value].id == id &&
                        forall j :: 0 <= j < r.value ==> items[j].id != id
    ensures r.None? <==> forall j :: 0 <= j < |items| ==> items[j].id != id
    decreases |items|
  {
    if |items| == 0 then None
    else if items[0].id == id then Some(0)
    else match FindById(items[1..], id)
      case None => None
      case Some(k) => Some(k + 1)
  }

  /**
   * Applies `a` to the `connected` flag of the first item with the given id:
   * an unknown id changes nothing, and every other item and field is kept.
   */
  function UpdateFirst(s: Store, id: string, a: Action): (r: Store)
    ensures |r.items| == |s.items|
    ensures FindById(s.items, id).None? ==> r == s
    ensures FindById(s.items, id).Some? ==>
      var i := FindById(s.items, id).value;
      && r.items[i] == s.items[i].(connected := Apply(a, s.items[i].connected))
      && forall j :: 0 <= j < |s.items| && j != i ==> r.items[j] == s.items[j]
  {
    match FindById(s.items, id)
    case None => s
    case Some(i) => Store(s.items[i := s.items[i].(connected := Apply(a, s.items[i].connected))])
  }

  /** `setConnections`: the list is replaced wholesale; the previous list leaves no trace. */
  function SetConnections(s: Store, connections: seq<ConnectionItem>): (r: Store)
    ensures r.items == connections
  {
    Store(connections)
  }

  /** `toggleConnection`: flips the flag of the first item with that id. */
  function Toggle(s: Store, id: string): (r: Store)
    ensures |r.items| == |s.items|
    ensures FindById(s.items, id).Some? ==>
      r.items[FindById(s.items, id).value].connected == !s.items[FindById(s.items, id).value].connected
  {
    UpdateFirst(s, id, Flip)
  }

  /** `connect`: sets the flag of the first item with that id. */
  function Connect(s: Store, id: string): (r: Store)
    ensures |r.items| == |s.items|
    ensures FindById(s.items, id).Some? ==> r.items[FindById(s.items, id).value].connected
  {
    UpdateFirst(s, id, SetTo(true))
  }

  /** `disconnect`: clears the flag of the first item with that id. */
  function Disconnect(s: Store, id: string): (r: Store)
    ensures |r.items| == |s.items|
    ensures FindById(s.items, id).Some? ==> !r.items[FindById(s.items, id).value].connected
  {
    UpdateFirst(s, id, SetTo(false))
  }

  /** The getter `connected`: the connected items, in list order. */
  function Connected(s: Store): seq<ConnectionItem> {
    Filter(s.items, true)
  }

  /** The getter `disconnected`: the other items, in list order. */
  function Disconnected(s: Store): seq<ConnectionItem> {
    Filter(s.items, false)
  }

  function Filter(items: seq<ConnectionItem>, status: bool): seq<ConnectionItem> {
    if |items| == 0 then []
    else (if items[0].connected == status then [items[0]] else []) + Filter(items[1..], status)
  }

  /* ---------- Properties ---------- */

  /** An update finds the same item afterwards: the ids of the list do not change. */
  lemma UpdateFirstKeepsIds(s: Store, id: string, a: Action, key: string)
    ensures FindById(UpdateFirst(s, id, a).items, key) == FindById(s.items, key)
  {
  }

  /** Replacing the list forgets the previous one entirely. */
  lemma SetConnectionsForgets(s1: Store, s2: Store, connections: seq<ConnectionItem>)
    ensures SetConnections(s1, connections) == SetConnections(s2, connections)
  {
  }

  /** Toggling the same id twice restores the store. */
  lemma ToggleTwice(s: Store, id: string)
    ensures Toggle(Toggle(s, id), id) == s
  {
  }

  /** Connecting twice is connecting once; likewise for disconnecting. */
  lemma ConnectIdempotent(s: Store, id: string)
    ensures Connect(Connect(s, id), id) == Connect(s, id)
    ensures Disconnect(Disconnect(s, id), id) == Disconnect(s, id)
  {
  }

  lemma {:induction false} FilterMembers(items: seq<ConnectionItem>, status: bool)
    ensures forall c :: c in Filter(items, status) <==> c in items && c.connected == status
    decreases |items|
  {
    if |items| > 0 {
      FilterMembers(items[1..], status);
      assert items == [items[0]] + items[1..];
    }
  }

  lemma {:induction false} FilterPartition(items: seq<ConnectionItem>)
    ensures multiset(Filter(items, true)) + multiset(Filter(items, false)) == multiset(items)
    decreases |items|
  {
    if |items| > 0 {
      var x, rest := items[0], items[1..];
      FilterPartition(rest);
      assert items == [x] + rest;
      assert Filter(items, true) == (if x.connected then [x] else []) + Filter(rest, true);
      assert Filter(items, false) == (if x.connected then [] else [x]) + Filter(rest, false);
    }
  }

  /**
   * `connected` and `disconnected` partition the list: every item lands in
   * exactly one of them according to its flag, and together they hold the
   * whole list (order is kept, see `FilterAppend`).
   */
  lemma GettersPartition(s: Store)
    ensures multiset(Connected(s)) + multiset(Disconnected(s)) == multiset(s.items)
    ensures |Connected(s)| + |Disconnected(s)| == |s.items|
    ensures forall c :: c in Connected(s) <==> c in s.items && c.connected
    ensures forall c :: c in Disconnected(s) <==> c in s.items && !c.connected
  {
    FilterPartition(s.items);
    FilterMembers(s.items, true);
    FilterMembers(s.items, false);
    assert |multiset(Connected(s))| + |multiset(Disconnected(s))| == |multiset(s.items)|;
  }

  /** Filtering distributes over concatenation, which is what keeping list order means. */
  lemma {:induction false} FilterAppend(a: seq<ConnectionItem>, b: seq<ConnectionItem>, status: bool)
    ensures Filter(a + b, status) == Filter(a, status) + Filter(b, status)
    decreases |a|
  {
    if |a| == 0 {
      assert a + b == b;
    } else {
      assert (a + b)[1..] == a[1..] + b;
      FilterAppend(a[1..], b, status);
    }
  }
}

=== FILE: credential_cache.dfy ===
/**
 * The UI-side credential cache: a small state `{list, loading, error}`
 * advanced by `loadAll`, `load` and `save`, each of which calls one command
 * of the desktop shell. What a command answers is a parameter (`Ok` with its
 * value, or `Err` with what it threw). Each action runs to completion as one
 * step; the `...Started` functions give the state observers see while the
 * command is in flight.
 *
 * Whether the code runs in a server context (`import.meta.server`) and
 * whether the Tauri runtime is present are the two flags of `Env`.
 */
module CredentialCache {
  import opened Common
  import Keychain

  type Credential = Keychain.Credential

  /** What a rejected promise carries: an `Error` object, or any other thrown value. */
  datatype Thrown = ErrorObject(message: string) | OtherValue(text: string)

  /** `formatErr`: an `Error`'s message; any other value as its string form. */
  function FormatErr(e: Thrown): string {
    match e
    case ErrorObject(message) => message
    case OtherValue(text) => text
  }

  /** A record as the UI submits it to `save` (no id yet). */
  datatype Draft = Draft(name: string, url: string, clientId: string, clientSecret: string)

  /** A command invoked over the channel, with its arguments. */
  datatype Command =
    | LoadAllCredentials
    | LoadCredentials(name: string)
    | SaveCredentials(name: string, url: string, clientId: string, clientSecret: string)

  /** The execution context: server-side rendering, and presence of the Tauri runtime. */
  datatype Env = Env(server: bool, tauri: bool)

  /** The cache's reactive state. */
  datatype State = State(list: seq<Credential>, loading: bool, error: Option<string>)

  /** An action's effect: the state afterwards, the commands it invoked in order, and how its promise settles. */
  datatype Step<T> = Step(state: State, invoked: seq<Command>, result: Result<T, Thrown>)

  /**
   * A constructed cache, or the error construction throws. `pending` says an
   * auto-load was started and not awaited: `state` is then the state observers
   * see while it is in flight.
   */
  datatype Instance = Refused(reason: Thrown) | Ready(state: State, warned: bool, invoked: seq<Command>, pending: bool)

  /** What `ensureClient` throws in a server context. */
  const ServerOnly: Thrown := ErrorObject("useCredentials must be used on the client (Tauri runtime).")

  /** `ensureClient`: throws exactly in a server context. */
  function EnsureClient(env: Env): (r: Option<Thrown>)
    ensures r.Some? <==> env.server
    ensures r.Some? ==> r.value == ServerOnly
  {
    if env.server then Some(ServerOnly) else None
  }

  /** The state a freshly constructed cache starts from. */
  const Initial: State := State([], false, None)

  /** The state while `load_all_credentials` is in flight: loading, with the error cleared. */
  function LoadAllStarted(s: State): (m: State)
    ensures m.loading && m.error == None && m.list == s.list
  {
    s.(loading := true, error := None)
  }

  /**
   * How a `load_all_credentials` reply settles on the state current at that
   * moment: the list is replaced or the error recorded, and `loading` ends.
   */
  function LoadAllSettled(m: State, reply: Result<seq<Credential>, Thrown>): (r: State)
    ensures !r.loading
    ensures reply.Ok? ==> r.list == reply.value && r.error == m.error
    ensures reply.Err? ==> r.list == m.list && r.error == Some(FormatErr(reply.error))
  {
    match reply
    case Ok(items) => m.(list := items, loading := false)
    case Err(e) => m.(error := Some(FormatErr(e)), loading := false)
  }

  /** The state while `load` or `save` waits on its command: the error cleared, nothing else touched. */
  function ErrorCleared(s: State): (m: State)
    ensures m.error == None && m.list == s.list && m.loading == s.loading
  {
    s.(error := None)
  }

  /**
   * `loadAll`: on success the list becomes exactly the returned records and
   * they are returned; on failure the list is kept, the formatted error is
   * recorded and the failure is rethrown. `loading` ends false either way.
   */
  function LoadAll(s: State, env: Env, reply: Result<seq<Credential>, Thrown>): (r: Step<seq<Credential>>)
    ensures env.server ==> r == Step(s, [], Err(ServerOnly))
    ensures !env.server ==> r.invoked == [LoadAllCredentials] && !r.state.loading
    ensures !env.server && reply.Ok? ==>
      r.state.list == reply.value && r.result == Ok(reply.value) && r.state.error == None
    ensures !env.server && reply.Err? ==>
      r.state.list == s.list && r.state.error == Some(FormatErr(reply.error)) && r.result == Err(reply.error)
  {
    if EnsureClient(env).Some? then Step(s, [], Err(EnsureClient(env).value))
    else
      Step(LoadAllSettled(LoadAllStarted(s), reply), [LoadAllCredentials], reply)
  }

  /** `load(label)`: returns the record or rethrows; never touches the list or `loading`. */
  function Load(s: State, env: Env, name: string, reply: Result<Credential, Thrown>): (r: Step<Credential>)
    ensures r.state.list == s.list && r.state.loading == s.loading
    ensures env.server ==> r == Step(s, [], Err(ServerOnly))
    ensures !env.server ==> r.invoked == [LoadCredentials(name)] && r.result == reply
    ensures !env.server ==> r.state.error == (if reply.Ok? then None else Some(FormatErr(reply.error)))
  {
    if EnsureClient(env).Some? then Step(s, [], Err(EnsureClient(env).value))
    else
      var m := ErrorCleared(s);
      match reply
      case Ok(c) => Step(m, [LoadCredentials(name)], Ok(c))
      case Err(e) => Step(m.(error := Some(FormatErr(e))), [LoadCredentials(name)], Err(e))
  }

  /**
   * `save(data)`: invokes `save_credentials`, then reloads everything with
   * `loadAll`. The list changes only through that reload. A failure at either
   * step is recorded and rethrown, so a failed reload after a successful
   * write leaves the old list in place.
   */
  function Save(s: State, env: Env, d: Draft, persisted: Result<Unit, Thrown>, reloaded: Result<seq<Credential>, Thrown>): (r: Step<Unit>)
    ensures env.server ==> r == Step(s, [], Err(ServerOnly))
    ensures !env.server ==>
      r.invoked == [SaveCredentials(d.name, d.url, d.clientId, d.clientSecret)] + (if persisted.Ok? then [LoadAllCredentials] else [])
    ensures r.state.list == (if !env.server && persisted.Ok? && reloaded.Ok? then reloaded.value else s.list)
    ensures !env.server ==> (r.result.Ok? <==> persisted.Ok? && reloaded.Ok?)
    ensures !env.server && r.result.Err? ==>
      r.result.error == (if persisted.Err? then persisted.error else reloaded.error) &&
      r.state.error == Some(FormatErr(r.result.error))
    ensures r.result.Ok? ==> r.state.error == None
    ensures r.state.loading == (if !env.server && persisted.Ok? then false else s.loading)
  {
    if EnsureClient(env).Some? then Step(s, [], Err(EnsureClient(env).value))
    else
      var m := ErrorCleared(s);
      var cmd := SaveCredentials(d.name, d.url, d.clientId, d.clientSecret);
      match persisted
      case Err(e) => Step(m.(error := Some(FormatErr(e))), [cmd], Err(e))
      case Ok(_) =>
        var l := LoadAll(m, env, reloaded);
        match l.result
        case Ok(_) => Step(l.state, [cmd] + l.invoked, Ok(Unit))
        case Err(e) => Step(l.state.(error := Some(FormatErr(e))), [cmd] + l.invoked, Err(e))
  }

  /**
   * `useCredentials(options)`: throws in a server context before invoking
   * anything; warns (without failing) when the Tauri runtime is missing; with
   * `autoLoad`, starts `loadAll` without awaiting it, so the cache comes back
   * loading, with the load still pending. Its failure is swallowed; how it
   * settles is `LoadAllSettled` (see `AutoLoadSettles`).
   */
  function UseCredentials(env: Env, autoLoad: bool): (r: Instance)
    ensures r.Refused? <==> env.server
    ensures r.Refused? ==> r.reason == ServerOnly
    ensures r.Ready? ==> r.warned == !env.tauri && r.pending == autoLoad
    ensures r.Ready? ==> r.state.list == [] && r.state.error == None && r.state.loading == autoLoad
    ensures r.Ready? ==> r.invoked == (if autoLoad then [LoadAllCredentials] else [])
  {
    if EnsureClient(env).Some? then Refused(EnsureClient(env).value)
    else if autoLoad then Ready(LoadAllStarted(Initial), !env.tauri, [LoadAllCredentials], true)
    else Ready(Initial, !env.tauri, [], false)
  }

  /* ---------- Properties relating several actions ---------- */

  /** Once nothing is loading, every action leaves nothing loading; `load` cannot change `loading` at all. */
  lemma ActionsKeepIdle(s: State, env: Env, name: string, d: Draft,
                        one: Result<Credential, Thrown>, all: Result<seq<Credential>, Thrown>, persisted: Result<Unit, Thrown>)
    requires !s.loading
    ensures !LoadAll(s, env, all).state.loading
    ensures !Load(s, env, name, one).state.loading
    ensures !Save(s, env, d, persisted, all).state.loading
  {
  }

  /** A failed `loadAll` keeps the list; a following successful one replaces it and clears the error. */
  lemma LoadAllRecovers(s: State, env: Env, e: Thrown, items: seq<Credential>)
    requires !env.server
    ensures
      var failed := LoadAll(s, env, Err(e));
      var recovered := LoadAll(failed.state, env, Ok(items));
      && failed.state.list == s.list && failed.state.error.Some?
      && recovered.state == State(items, false, None)
  {
  }

  /** After a successful persist, `save` ends with the list `loadAll` would have produced from the same reply. */
  lemma SaveListIsReloadList(s: State, env: Env, d: Draft, reloaded: Result<seq<Credential>, Thrown>)
    requires !env.server
    ensures Save(s, env, d, Ok(Unit), reloaded).state.list == LoadAll(s, env, reloaded).state.list
    ensures Save(s, env, d, Ok(Unit), reloaded).state.error == LoadAll(s, env, reloaded).state.error
  {
  }

  /**
   * When nothing else runs before the auto-load settles, the cache ends as an
   * awaited `loadAll` on a fresh cache would leave it, and a failure is kept
   * as the recorded error rather than thrown.
   */
  lemma AutoLoadSettles(env: Env, reply: Result<seq<Credential>, Thrown>)
    requires !env.server
    ensures UseCredentials(env, true).Ready?
    ensures LoadAllSettled(UseCredentials(env, true).state, reply) == LoadAll(Initial, env, reply).state
    ensures LoadAllSettled(UseCredentials(env, true).state, reply) ==
      State(if reply.Ok? then reply.value else [], false, if reply.Ok? then None else Some(FormatErr(reply.error)))
  {
  }
}

=== FILE: end_to_end.dfy ===
/**
 * Properties that connect the UI-side credential cache with the keychain
 * store behind the command channel: the cache's replies are what the
 * store's commands return.
 */
module EndToEnd {
  import opened Common
  import opened KeychainIndex
  import Keychain
  import CredentialCache

  /**
   * A command's return value as the UI receives it: success passes through,
   * and the error string is thrown as the value `toThrown` makes of it.
   */
  function Relay<T>(r: Result<T, Keychain.CommandError>, toThrown: Keychain.CommandError -> CredentialCache.Thrown): (u: Result<T, CredentialCache.Thrown>)
    ensures u.Ok? <==> r.Ok?
    ensures u.Ok? ==> u.value == r.value
  {
    match r
    case Ok(v) => Ok(v)
    case Err(e) => Err(toThrown(e))
  }

  /**
   * When the keychain accepts both writes, `save` followed by its reload
   * leaves the cache holding the new record: its fresh id and its label.
   */
  lemma SaveThenListHoldsRecord(st: Keychain.Store, id: string, d: CredentialCache.Draft,
                                cache: CredentialCache.State, env: CredentialCache.Env,
                                toThrown: Keychain.CommandError -> CredentialCache.Thrown)
    requires Keychain.Wf(st) && Keychain.Fresh(st, id) && !st.index.Unreadable?
    requires !env.server
    ensures
      var saved := Keychain.Save(st, id, d.name, d.url, d.clientId, d.clientSecret, Keychain.Done, Keychain.Done);
      var r := CredentialCache.Save(cache, env, d, Relay(saved.result, toThrown), Relay(Keychain.LoadAll(saved.store), toThrown));
      && r.result.Ok?
      && Keychain.Credential(id, d.name, d.url, d.clientId, d.clientSecret) in r.state.list
  {
    var saved := Keychain.Save(st, id, d.name, d.url, d.clientId, d.clientSecret, Keychain.Done, Keychain.Done);
    var rec := Keychain.Credential(id, d.name, d.url, d.clientId, d.clientSecret);
    Keychain.CreateIndexesNewRecord(st, id, d.name, d.url, d.clientId, d.clientSecret, Keychain.Done, Keychain.Done);
    var items := Keychain.ItemsOf(saved.store.index);
    assert IndexItem(id, d.name) in items;
    var i :| 0 <= i < |items| && items[i] == IndexItem(id, d.name);
    Keychain.CollectMembers(items, saved.store.records);
    assert rec in Keychain.Collect(items, saved.store.records);
  }
}

=== FILE: http.dfy ===
/**
 * The authenticated request façade: a client holding an optional bearer
 * token builds the headers of each request from the bearer and the body's
 * shape, merges the caller's headers over them, and hands the request to an
 * eager or a deferred fetch. The verb wrappers attach `resend`, which issues
 * the same request against a new URL and, when it resolves, overwrites the
 * `data` of the ORIGINAL handle.
 *
 * The fetch itself is not modelled: a request is the `Fetch` value handed to
 * the fetch layer, and what comes back is a `Response` given as a parameter.
 */
module Http {
  import opened Common

  /** A header set: header name to value. */
  type Headers = map<string, string>

  const Authorization: string := "Authorization"
  const ContentType: string := "Content-Type"
  const Accept: string := "Accept"
  const ApplicationJson: string := "application/json"
  const BearerPrefix: string := "Bearer "

  /** The HTTP method; the source spells them in lower case. */
  datatype Method = GET | POST | PUT | DELETE

  /** One member of an object body or one field of a multipart form. */
  datatype Field = Field(name: string, value: string)

  /**
   * The request body, by the shape the header builder looks at: none
   * (`null`/`undefined`), a non-form object (including arrays), a multipart
   * `FormData`, or a primitive (string, number, boolean).
   */
  datatype Body = NoBody | Json(members: seq<Field>) | Form(fields: seq<Field>) | Primitive(text: string)

  /**
   * A façade instance. `defaults` are the headers given to the constructor;
   * they are stored but no request reads them.
   */
  datatype Client = Client(bearer: Option<string>, defaults: Headers)

  /** The options of one request. An absent `headers` is the empty map and an absent `lazy` is false. */
  datatype Options = Options(verb: Method, headers: Headers, body: Body, lazy: bool)

  /** The options a verb wrapper accepts besides the method and the body. */
  datatype Extras = Extras(headers: Headers, lazy: bool)

  /** Which fetch runs the request: `useFetch` (eager) or `useLazyFetch` (deferred). */
  datatype Mode = Eager | Deferred

  /** A request as handed to the fetch layer. */
  datatype Fetch = Fetch(mode: Mode, url: string, verb: Method, headers: Headers, body: Body)

  /** The data and error slots of a fetch handle, either possibly null. */
  datatype Response<D> = Response(data: Option<D>, error: Option<string>)

  /** The outcome of a plain `request`: the fetch issued and what it settled with. */
  datatype Issued<D> = Issued(fetch: Fetch, response: Response<D>)

  /**
   * A handle returned by a verb wrapper: the response slots plus what its
   * `resend` closure captured (the client and the parsed options).
   */
  datatype Handle<D> = Handle(client: Client, url: string, options: Options, fetch: Fetch,
                              data: Option<D>, error: Option<string>)

  /** The result of a resend: the original handle after the overwrite, and the new request. */
  datatype Resent<D> = Resent(original: Handle<D>, reissued: Issued<D>)

  /** JavaScript truthiness of the bearer: `null` and the empty string are falsy. */
  predicate Truthy(bearer: Option<string>) {
    bearer.Some? && bearer.value != ""
  }

  /**
   * `buildHeaders`: `Authorization` exactly when the bearer is truthy,
   * `Content-Type: application/json` exactly for a non-form object body,
   * `Accept: application/json` always, and nothing else.
   */
  function BuildHeaders(bearer: Option<string>, body: Body): (h: Headers)
    ensures Authorization in h <==> Truthy(bearer)
    ensures Authorization in h ==> h[Authorization] == BearerPrefix + bearer.value
    ensures ContentType in h <==> body.Json?
    ensures ContentType in h ==> h[ContentType] == ApplicationJson
    ensures Accept in h && h[Accept] == ApplicationJson
    ensures h.Keys <= {Authorization, ContentType, Accept}
  {
    var withAuth: Headers := if Truthy(bearer) then map[Authorization := BearerPrefix + bearer.value] else map[];
    var withType := if body.Json? then withAuth[ContentType := ApplicationJson] else withAuth;
    withType[Accept := ApplicationJson]
  }

  /** `{ ...computed, ...caller }`: the caller's headers win, computed ones the caller left out stay. */
  function Merge(computed: Headers, caller: Headers): (h: Headers)
    ensures h.Keys == computed.Keys + caller.Keys
    ensures forall k :: k in caller ==> h[k] == caller[k]
    ensures forall k :: k in computed && k !in caller ==> h[k] == computed[k]
  {
    computed + caller
  }

  /**
   * `request`: method and body pass through, the headers are the built ones
   * with the caller's merged over them, and `lazy` picks the deferred fetch.
   */
  function Request(client: Client, url: string, opts: Options): (f: Fetch)
    ensures f.url == url && f.verb == opts.verb && f.body == opts.body
    ensures f.mode == (if opts.lazy then Deferred else Eager)
    ensures f.headers == Merge(BuildHeaders(client.bearer, opts.body), opts.headers)
    ensures Accept in f.headers
    ensures Authorization !in opts.headers ==> (Authorization in f.headers <==> Truthy(client.bearer))
    ensures ContentType !in opts.headers ==> (ContentType in f.headers <==> opts.body.Json?)
  {
    Fetch(if opts.lazy then Deferred else Eager, url, opts.verb,
          Merge(BuildHeaders(client.bearer, opts.body), opts.headers), opts.body)
  }

  /** A handle whose recorded fetch is the one its client and options produce for its URL. */
  ghost predicate Consistent<D>(h: Handle<D>) {
    h.fetch == Request(h.client, h.url, h.options)
  }

  /** `createMethod`: fixes the method, issues the request and returns a handle that can resend it. */
  function CreateMethod<D>(client: Client, verb: Method, url: string, extras: Extras, body: Body,
                           response: Response<D>): (h: Handle<D>)
    ensures h.client == client && h.url == url
    ensures h.options == Options(verb, extras.headers, body, extras.lazy)
    ensures h.fetch.verb == verb && h.fetch.url == url && h.fetch.body == body
    ensures h.data == response.data && h.error == response.error
    ensures Consistent(h)
  {
    var parsed := Options(verb, extras.headers, body, extras.lazy);
    Handle(client, url, parsed, Request(client, url, parsed), response.data, response.error)
  }

  /** `get`: a GET with no body. */
  function Get<D>(client: Client, url: string, extras: Extras, response: Response<D>): (h: Handle<D>)
    ensures h.fetch.verb == GET && h.fetch.body == NoBody
    ensures h.fetch == Request(client, url, Options(GET, extras.headers, NoBody, extras.lazy))
    ensures h.client == client && h.url == url && h.options == Options(GET, extras.headers, NoBody, extras.lazy)
    ensures Consistent(h)
  {
    CreateMethod(client, GET, url, extras, NoBody, response)
  }

  /** `delete`: a DELETE with no body. */
  function Delete<D>(client: Client, url: string, extras: Extras, response: Response<D>): (h: Handle<D>)
    ensures h.fetch.verb == DELETE && h.fetch.body == NoBody
    ensures h.fetch == Request(client, url, Options(DELETE, extras.headers, NoBody, extras.lazy))
    ensures h.client == client && h.url == url && h.options == Options(DELETE, extras.headers, NoBody, extras.lazy)
    ensures Consistent(h)
  {
    CreateMethod(client, DELETE, url, extras, NoBody, response)
  }

  /** `post`: a POST carrying the given body. */
  function Post<D>(client: Client, url: string, extras: Extras, body: Body, response: Response<D>): (h: Handle<D>)
    ensures h.fetch.verb == POST && h.fetch.body == body
    ensures h.fetch == Request(client, url, Options(POST, extras.headers, body, extras.lazy))
    ensures h.client == client && h.url == url && h.options == Options(POST, extras.headers, body, extras.lazy)
    ensures Consistent(h)
  {
    CreateMethod(client, POST, url, extras, body, response)
  }

  /** `put`: a PUT carrying the given body. */
  function Put<D>(client: Client, url: string, extras: Extras, body: Body, response: Response<D>): (h: Handle<D>)
    ensures h.fetch.verb == PUT && h.fetch.body == body
    ensures h.fetch == Request(client, url, Options(PUT, extras.headers, body, extras.lazy))
    ensures h.client == client && h.url == url && h.options == Options(PUT, extras.headers, body, extras.lazy)
    ensures Consistent(h)
  {
    CreateMethod(client, PUT, url, extras, body, response)
  }

  /**
   * `resend(newUrl)`: issues a plain request to `newUrl` with the captured
   * client and options; once it settles, the original handle's `data` is
   * overwritten with the new data and nothing else on it changes.
   */
  function Resend<D>(h: Handle<D>, newUrl: string, response: Response<D>): (r: Resent<D>)
    ensures r.original == h.(data := response.data)
    ensures r.reissued.response == response
    ensures r.reissued.fetch.url == newUrl
    ensures Consistent(h) ==>
      && r.reissued.fetch.verb == h.fetch.verb
      && r.reissued.fetch.headers == h.fetch.headers
      && r.reissued.fetch.body == h.fetch.body
      && r.reissued.fetch.mode == h.fetch.mode
    ensures Consistent(h) ==> Consistent(r.original)
  {
    Resent(h.(data := response.data), Issued(Request(h.client, newUrl, h.options), response))
  }

  /* ---------- Properties relating several operations ---------- */

  /** The headers depend on the bearer only through its truthiness and value, and on the body only through its shape. */
  lemma BuildHeadersByShape(b1: Option<string>, b2: Option<string>, body1: Body, body2: Body)
    requires Truthy(b1) == Truthy(b2) && (Truthy(b1) ==> b1.value == b2.value)
    requires body1.Json? == body2.Json?
    ensures BuildHeaders(b1, body1) == BuildHeaders(b2, body2)
  {
  }

  /** A caller-supplied `Authorization` replaces the computed one, whatever the bearer. */
  lemma CallerAuthorizationWins(client: Client, url: string, opts: Options, value: string)
    requires Authorization in opts.headers && opts.headers[Authorization] == value
    ensures Request(client, url, opts).headers[Authorization] == value
  {
  }

  /** The constructor's default headers never reach a request. */
  lemma RequestIgnoresDefaults(bearer: Option<string>, d1: Headers, d2: Headers, url: string, opts: Options)
    ensures Request(Client(bearer, d1), url, opts) == Request(Client(bearer, d2), url, opts)
  {
  }

  /**
   * A resend on a handle from `get` issues a GET to the new URL with the
   * original headers and no body, and the original handle then holds the new
   * data. This follows from the contracts of `Get` and `Resend` alone.
   */
  lemma ResendAfterGet<D>(client: Client, url: string, extras: Extras, r0: Response<D>, newUrl: string, r1: Response<D>)
    ensures
      var h := Get(client, url, extras, r0);
      var r := Resend(h, newUrl, r1);
      && r.reissued.fetch.verb == GET && r.reissued.fetch.url == newUrl
      && r.reissued.fetch.headers == h.fetch.headers && r.reissued.fetch.body == NoBody
      && r.original.data == r1.data && r.original.fetch == h.fetch
  {
  }

  /**
   * Two resends on one handle, applied one after the other: the request of the
   * second is unaffected by the first, and the last to settle decides `data`.
   */
  lemma ResendLastWriteWins<D>(h: Handle<D>, url1: string, r1: Response<D>, url2: string, r2: Response<D>)
    requires Consistent(h)
    ensures
      var first := Resend(h, url1, r1);
      var second := Resend(first.original, url2, r2);
      && second.original == h.(data := r2.data)
      && second.reissued.fetch == Request(h.client, url2, h.options)
  {
  }
}

=== FILE: id_order.dfy ===
/**
 * The order in which the keychain index sorts credential ids.
 *
 * The index is sorted with Rust's `String::cmp`, which compares UTF-8 bytes
 * lexicographically; for well-formed strings that is the same as comparing
 * code points lexicographically, which is what `Le` does on `seq<char>`.
 */
module IdOrder {

  /** `a` sorts no later than `b`: `a` is a prefix of `b`, or the first differing character of `a` is smaller. */
  predicate Le(a: string, b: string)
    decreases |a|
  {
    |a| == 0 || (|b| > 0 && (a[0] < b[0] || (a[0] == b[0] && Le(a[1..], b[1..]))))
  }

  /** `a` sorts strictly before `b`. */
  predicate Lt(a: string, b: string) {
    Le(a, b) && a != b
  }

  lemma {:induction false} LeReflexive(a: string)
    ensures Le(a, a)
    decreases |a|
  {
    if |a| > 0 {
      LeReflexive(a[1..]);
    }
  }

  lemma {:induction false} LeTotal(a: string, b: string)
    ensures Le(a, b) || Le(b, a)
    decreases |a|
  {
    if |a| > 0 && |b| > 0 && a[0] == b[0] {
      LeTotal(a[1..], b[1..]);
    }
  }

  lemma {:induction false} LeAntisymmetric(a: string, b: string)
    requires Le(a, b) && Le(b, a)
    ensures a == b
    decreases |a|
  {
    if |a| > 0 {
      LeAntisymmetric(a[1..], b[1..]);
      assert a == [a[0]] + a[1..];
      assert b == [b[0]] + b[1..];
    }
  }

  lemma {:induction false} LeTransitive(a: string, b: string, c: string)
    requires Le(a, b) && Le(b, c)
    ensures Le(a, c)
    decreases |a|
  {
    if |a| > 0 && a[0] == b[0] && b[0] == c[0] {
      LeTransitive(a[1..], b[1..], c[1..]);
    }
  }
}

=== FILE: instance_meta.dfy ===
/**
 * The instance metadata store: the current bearer token and the described
 * objects of the connected instance, each possibly null.
 */
module InstanceMeta {
  import opened Common

  /** The object description payload; its structure is never inspected. */
  type SObjects = string

  /** The store's state. */
  datatype Meta = Meta(bearer: Option<string>, sobjects: Option<SObjects>)

  /** The initial state: no bearer and no object description. */
  function Initial(): (m: Meta)
    ensures m.bearer == None && m.sobjects == None
  {
    Meta(None, None)
  }

  /** `setBearer`: stores the token and leaves the object description alone. */
  function SetBearer(m: Meta, token: string): (r: Meta)
    ensures r.bearer == Some(token) && r.sobjects == m.sobjects
  {
    m.(bearer := Some(token))
  }

  /** `setSobjects`: stores the description (which may itself be null) and leaves the bearer alone. */
  function SetSobjects(m: Meta, sobjects: Option<SObjects>): (r: Meta)
    ensures r.sobjects == sobjects && r.bearer == m.bearer
  {
    m.(sobjects := sobjects)
  }

  /** `purge`: clears the object description only; the bearer survives. */
  function Purge(m: Meta): (r: Meta)
    ensures r.sobjects == None && r.bearer == m.bearer
  {
    m.(sobjects := None)
  }

  /** Purging is idempotent, and it undoes any earlier `setSobjects`. */
  lemma PurgeIdempotent(m: Meta, sobjects: Option<SObjects>)
    ensures Purge(Purge(m)) == Purge(m)
    ensures Purge(SetSobjects(m, sobjects)) == Purge(m)
  {
  }

  /** The two setters touch disjoint fields, so their order does not matter. */
  lemma SettersCommute(m: Meta, token: string, sobjects: Option<SObjects>)
    ensures SetBearer(SetSobjects(m, sobjects), token) == SetSobjects(SetBearer(m, token), sobjects)
  {
  }
}

=== FILE: keychain.dfy ===
/**
 * The keychain-backed credential store of the desktop shell.
 *
 * The OS keychain is a map from username to stored record, all under one
 * service name. Each credential is stored under its own id; a reserved
 * username holds the `{id, label}` index used for listing and lookups. The
 * commands below keep both up to date. What the keychain itself decides (a
 * write or delete failing) enters as an `Effect` parameter, a record that
 * cannot be read is a missing key, and a freshly generated id is a parameter.
 */
module Keychain {
  import opened Common
  import opened KeychainIndex

  /** The username under which the index itself is stored. */
  const IndexUsername: string := "__ids_index__"

  /**
   * One credential. The keychain payload and the record returned to the UI
   * carry the same fields, so one datatype serves both (`name` is the label).
   */
  datatype Credential = Credential(id: string, name: string, url: string, clientId: string, clientSecret: string)

  /** The reserved index entry: absent, holding an index, or failing to read or parse. */
  datatype IndexEntry = NoEntry | Stored(items: seq<IndexItem>) | Unreadable(reason: string)

  /** The part of the keychain the store uses: one record per id, plus the index entry. */
  datatype Store = Store(records: map<string, Credential>, index: IndexEntry)

  /** What the keychain answers to one write or delete request. */
  datatype Effect = Done | Failed(reason: string)

  /** The error string a command returns, by the step that produced it. */
  datatype CommandError =
    | IndexReadFailed(reason: string)
    | RecordReadFailed(id: string)
    | NoSuchLabel(name: string)
    | WriteFailed(reason: string)
    | DeleteFailed(reason: string)

  /** The keychain after a command, and what the command returned. */
  datatype Reply<T> = Reply(store: Store, result: Result<T, CommandError>)

  /**
   * The shape every command keeps: the index username holds no record, each
   * record sits under its own id, and a stored index is strictly sorted by id.
   */
  ghost predicate Wf(st: Store) {
    && IndexUsername !in st.records
    && (forall k :: k in st.records ==> st.records[k].id == k)
    && (st.index.Stored? ==> StrictlySorted(st.index.items))
  }

  /** The index as it reads when it is readable (a missing entry reads as empty). */
  function ItemsOf(e: IndexEntry): seq<IndexItem> {
    if e.Stored? then e.items else []
  }

  /** `id` can serve as a newly generated id: it names no record and no index item. */
  ghost predicate Fresh(st: Store, id: string) {
    id != IndexUsername && id !in st.records && id !in Ids(ItemsOf(st.index))
  }

  /* ---------- Index helpers ---------- */

  /** Reading the index: a missing entry is the empty index, any other failure is an error. */
  function ReadIndex(st: Store): (r: Result<seq<IndexItem>, CommandError>)
    ensures r.Ok? <==> !st.index.Unreadable?
    ensures r.Ok? ==> r.value == ItemsOf(st.index)
    ensures st.index.NoEntry? ==> r == Ok([])
    ensures st.index.Unreadable? ==> r == Err(IndexReadFailed(st.index.reason))
  {
    match st.index
    case NoEntry => Ok([])
    case Stored(items) => Ok(items)
    case Unreadable(reason) => Err(IndexReadFailed(reason))
  }

  /** Writing the index: it is stored in canonical form, and a failed write changes nothing. */
  function WriteIndex(st: Store, items: seq<IndexItem>, write: Effect): (r: Reply<Unit>)
    ensures r.result.Ok? <==> write.Done?
    ensures r.store.records == st.records
    ensures write.Done? ==> r.store.index.Stored? && Canonical(items, r.store.index.items)
    ensures write.Failed? ==> r == Reply(st, Err(WriteFailed(write.reason)))
  {
    NormalizeCanonical(items);
    match write
    case Done => Reply(st.(index := Stored(Normalize(items))), Ok(Unit))
    case Failed(reason) => Reply(st, Err(WriteFailed(reason)))
  }

  /* ---------- Commands ---------- */

  /**
   * `create_credentials`: writes the record under the new id, then appends
   * `{id, label}` to the index. Each step stops the command on failure, so a
   * failed record write leaves everything as it was and a failed index step
   * leaves the new record in place with the index untouched.
   */
  function Create(st: Store, id: string, name: string, url: string, clientId: string, clientSecret: string,
                  recordWrite: Effect, indexWrite: Effect): (r: Reply<Credential>)
    ensures r.result.Ok? <==> recordWrite.Done? && !st.index.Unreadable? && indexWrite.Done?
    ensures r.result.Ok? ==> r.result.value == Credential(id, name, url, clientId, clientSecret)
    ensures recordWrite.Failed? ==> r == Reply(st, Err(WriteFailed(recordWrite.reason)))
    ensures recordWrite.Done? ==> r.store.records == st.records[id := Credential(id, name, url, clientId, clientSecret)]
    ensures r.result.Err? ==> r.store.index == st.index
    ensures r.result.Ok? ==> r.store.index.Stored? && Canonical(ItemsOf(st.index) + [IndexItem(id, name)], r.store.index.items)
    ensures recordWrite.Done? && st.index.Unreadable? ==> r.result == Err(IndexReadFailed(st.index.reason))
    ensures recordWrite.Done? && !st.index.Unreadable? && indexWrite.Failed? ==> r.result == Err(WriteFailed(indexWrite.reason))
  {
    var rec := Credential(id, name, url, clientId, clientSecret);
    if recordWrite.Failed? then Reply(st, Err(WriteFailed(recordWrite.reason)))
    else
      var st1 := st.(records := st.records[id := rec]);
      match ReadIndex(st1)
      case Err(e) => Reply(st1, Err(e))
      case Ok(items) =>
        var w := WriteIndex(st1, items + [IndexItem(id, name)], indexWrite);
        if w.result.Err? then Reply(w.store, Err(w.result.error)) else Reply(w.store, Ok(rec))
  }

  /** `save_credentials`: `create_credentials` with the returned record discarded. */
  function Save(st: Store, id: string, name: string, url: string, clientId: string, clientSecret: string,
                recordWrite: Effect, indexWrite: Effect): (r: Reply<Unit>)
    ensures r.store == Create(st, id, name, url, clientId, clientSecret, recordWrite, indexWrite).store
    ensures r.result.Ok? <==> recordWrite.Done? && !st.index.Unreadable? && indexWrite.Done?
    ensures r.result.Err? ==> r.result.error == Create(st, id, name, url, clientId, clientSecret, recordWrite, indexWrite).result.error
  {
    var c := Create(st, id, name, url, clientId, clientSecret, recordWrite, indexWrite);
    Reply(c.store, if c.result.Ok? then Ok(Unit) else Err(c.result.error))
  }

  /** `i` is the position of the first item of `items` labelled `name`. */
  ghost predicate FirstNamed(items: seq<IndexItem>, name: string, i: int) {
    0 <= i < |items| && items[i].name == name && forall j :: 0 <= j < i ==> items[j].name != name
  }

  /** The position of the first item labelled `name`, as `find` returns it. */
  function FindByName(items: seq<IndexItem>, name: string): (r: Option<nat>)
    ensures r.Some? ==> FirstNamed(items, name, r.value)
    ensures r.None? <==> forall j :: 0 <= j < |items| ==> items[j].name != name
    decreases |items|
  {
    if |items| == 0 then None
    else if items[0].name == name then Some(0)
    else match FindByName(items[1..], name)
      case None => None
      case Some(k) => Some(k + 1)
  }

  /**
   * `load_credentials`: the record of the first index item with the given
   * label, in stored (id) order. Errors when the index cannot be read, when no
   * item carries the label, or when that item's record cannot be read.
   */
  function LoadByLabel(st: Store, name: string): (r: Result<Credential, CommandError>)
    ensures st.index.Unreadable? ==> r == Err(IndexReadFailed(st.index.reason))
    ensures r.Ok? ==>
      exists i :: FirstNamed(ItemsOf(st.index), name, i) &&
        ItemsOf(st.index)[i].id in st.records && r.value == st.records[ItemsOf(st.index)[i].id]
    ensures !st.index.Unreadable? ==>
      (r == Err(NoSuchLabel(name)) <==> forall j :: 0 <= j < |ItemsOf(st.index)| ==> ItemsOf(st.index)[j].name != name)
    ensures r.Err? && r.error.RecordReadFailed? ==>
      exists i :: FirstNamed(ItemsOf(st.index), name, i) && ItemsOf(st.index)[i].id !in st.records
    ensures forall i :: !st.index.Unreadable? && FirstNamed(ItemsOf(st.index), name, i) ==>
      r == (if ItemsOf(st.index)[i].id in st.records then Ok(st.records[ItemsOf(st.index)[i].id])
            else Err(RecordReadFailed(ItemsOf(st.index)[i].id)))
  {
    match ReadIndex(st)
    case Err(e) => Err(e)
    case Ok(items) =>
      match FindByName(items, name)
      case None => Err(NoSuchLabel(name))
      case Some(i) =>
        var id := items[i].id;
        if id in st.records then Ok(st.records[id]) else Err(RecordReadFailed(id))
  }

  /** `load_credentials_by_id`: the record stored under `id`, or a read error. */
  function LoadById(st: Store, id: string): (r: Result<Credential, CommandError>)
    ensures r.Ok? <==> id in st.records
    ensures r.Ok? ==> r.value == st.records[id]
    ensures r.Err? ==> r.error == RecordReadFailed(id)
    ensures Wf(st) && r.Ok? ==> r.value.id == id
  {
    if id in st.records then Ok(st.records[id]) else Err(RecordReadFailed(id))
  }

  /** The readable records of the index items, in index order; unreadable ones are skipped. */
  function Collect(items: seq<IndexItem>, records: map<string, Credential>): seq<Credential>
    decreases |items|
  {
    if |items| == 0 then []
    else
      var last := items[|items| - 1];
      Collect(items[..|items| - 1], records) + (if last.id in records then [records[last.id]] else [])
  }

  /** `load_all_credentials` as a value: the index read, then every readable record in index order. */
  function LoadAll(st: Store): Result<seq<Credential>, CommandError> {
    match ReadIndex(st)
    case Err(e) => Err(e)
    case Ok(items) => Ok(Collect(items, st.records))
  }

  /** `load_all_credentials`: walks the index once, keeping each record that reads and skipping the rest. */
  method LoadAllCredentials(st: Store) returns (r: Result<seq<Credential>, CommandError>)
    ensures r.Ok? <==> !st.index.Unreadable?
    ensures r.Err? ==> r.error == IndexReadFailed(st.index.reason)
    ensures r.Ok? ==> |r.value| <= |ItemsOf(st.index)|
    ensures r == LoadAll(st)
  {
    var read := ReadIndex(st);
    if read.Err? {
      return Err(read.error);
    }
    var index := read.value;
    var out: seq<Credential> := [];
    var i := 0;
    while i < |index|
      invariant 0 <= i <= |index|
      invariant out == Collect(index[..i], st.records)
      invariant |out| <= i
    {
      var item := index[i];
      assert index[..i + 1][..i] == index[..i];
      if item.id in st.records {
        out := out + [st.records[item.id]];
      }
      i := i + 1;
    }
    assert index[..|index|] == index;
    return Ok(out);
  }

  /**
   * `delete_credentials`: removes the record (succeeding when it is already
   * gone), then removes every index item with that id. A failed keychain
   * delete changes nothing; a failure after it leaves the record removed.
   * Deleting the index's own username removes the index entry, which then
   * reads as empty.
   */
  function Delete(st: Store, id: string, removal: Effect, indexWrite: Effect): (r: Reply<Unit>)
    ensures removal.Failed? ==> r == Reply(st, Err(DeleteFailed(removal.reason)))
    ensures removal.Done? ==> r.store.records == st.records - {id}
    ensures r.result.Ok? <==> removal.Done? && (id == IndexUsername || !st.index.Unreadable?) && indexWrite.Done?
    ensures r.result.Ok? ==> id !in Ids(ItemsOf(r.store.index))
    ensures r.result.Ok? ==>
      r.store.index.Stored? &&
      Canonical(Retain(ItemsOf(if id == IndexUsername then NoEntry else st.index), id), r.store.index.items)
    ensures r.result.Err? && removal.Done? && id != IndexUsername ==> r.store.index == st.index
    ensures r.result.Err? && removal.Done? && id == IndexUsername ==> r.store.index == NoEntry
    ensures removal.Done? && id != IndexUsername && st.index.Unreadable? ==> r.result == Err(IndexReadFailed(st.index.reason))
    ensures removal.Done? && (id == IndexUsername || !st.index.Unreadable?) && indexWrite.Failed? ==>
      r.result == Err(WriteFailed(indexWrite.reason))
  {
    if removal.Failed? then Reply(st, Err(DeleteFailed(removal.reason)))
    else
      var st1 := Store(st.records - {id}, if id == IndexUsername then NoEntry else st.index);
      match ReadIndex(st1)
      case Err(e) => Reply(st1, Err(e))
      case Ok(items) =>
        var kept := Retain(items, id);
        RetainMembers(items, id);
        NormalizeIds(kept);
        WriteIndex(st1, kept, indexWrite)
  }

  /* ---------- Properties relating several commands ---------- */

  /** A successful create adds exactly the new `{id, label}` item to the index, and every command keeps `Wf`. */
  lemma CreateIndexesNewRecord(st: Store, id: string, name: string, url: string, clientId: string, clientSecret: string,
                               recordWrite: Effect, indexWrite: Effect)
    requires Wf(st) && Fresh(st, id)
    ensures
      var r := Create(st, id, name, url, clientId, clientSecret, recordWrite, indexWrite);
      && Wf(r.store)
      && (r.result.Ok? ==> forall e :: e in ItemsOf(r.store.index) <==> e in ItemsOf(st.index) || e == IndexItem(id, name))
  {
    var r := Create(st, id, name, url, clientId, clientSecret, recordWrite, indexWrite);
    if r.result.Ok? {
      NormalizeAppendFresh(ItemsOf(st.index), IndexItem(id, name));
      NormalizeUnique(ItemsOf(st.index) + [IndexItem(id, name)], r.store.index.items);
    }
  }

  /** A successful delete keeps every other index item, in order; every delete keeps `Wf`. */
  lemma DeleteRetainsOthers(st: Store, id: string, removal: Effect, indexWrite: Effect)
    requires Wf(st)
    ensures
      var r := Delete(st, id, removal, indexWrite);
      && Wf(r.store)
      && (r.result.Ok? && id != IndexUsername ==> r.store.index == Stored(Retain(ItemsOf(st.index), id)))
  {
    var r := Delete(st, id, removal, indexWrite);
    if r.result.Ok? {
      var kept := Retain(ItemsOf(if id == IndexUsername then NoEntry else st.index), id);
      NormalizeUnique(kept, r.store.index.items);
      if id != IndexUsername {
        RetainStrictlySorted(ItemsOf(st.index), id);
        NormalizeStrictlySorted(kept);
      }
    }
  }

  /** Saving the same label twice keeps both entries, under two distinct ids. */
  lemma SaveTwiceKeepsBoth(st: Store, id1: string, id2: string, name: string,
                           u1: string, c1: string, s1: string, u2: string, c2: string, s2: string)
    requires Wf(st) && !st.index.Unreadable?
    requires Fresh(st, id1) && Fresh(st, id2) && id1 != id2
    ensures
      var st1 := Save(st, id1, name, u1, c1, s1, Done, Done).store;
      Fresh(st1, id2) &&
      var r2 := Save(st1, id2, name, u2, c2, s2, Done, Done);
      && r2.result.Ok?
      && IndexItem(id1, name) in ItemsOf(r2.store.index)
      && IndexItem(id2, name) in ItemsOf(r2.store.index)
      && r2.store.records[id1] == Credential(id1, name, u1, c1, s1)
      && r2.store.records[id2] == Credential(id2, name, u2, c2, s2)
  {
    var st1 := Save(st, id1, name, u1, c1, s1, Done, Done).store;
    CreateIndexesNewRecord(st, id1, name, u1, c1, s1, Done, Done);
    assert IndexItem(id1, name) in ItemsOf(st1.index);
    assert Ids(ItemsOf(st1.index)) <= Ids(ItemsOf(st.index)) + {id1} by {
      forall x | x in Ids(ItemsOf(st1.index)) ensures x in Ids(ItemsOf(st.index)) + {id1} {
        var i :| 0 <= i < |ItemsOf(st1.index)| && ItemsOf(st1.index)[i].id == x;
        var e := ItemsOf(st1.index)[i];
        if e != IndexItem(id1, name) {
          assert e in ItemsOf(st.index);
          var k :| 0 <= k < |ItemsOf(st.index)| && ItemsOf(st.index)[k] == e;
        }
      }
    }
    assert Fresh(st1, id2);
    CreateIndexesNewRecord(st1, id2, name, u2, c2, s2, Done, Done);
  }

  /** Deleting twice leaves the keychain and the reply as deleting once. */
  lemma DeleteIdempotent(st: Store, id: string)
    ensures Delete(Delete(st, id, Done, Done).store, id, Done, Done) == Delete(st, id, Done, Done)
  {
    var r1 := Delete(st, id, Done, Done);
    if r1.result.Ok? {
      var n := r1.store.index.items;
      NormalizeCanonical(Retain(ItemsOf(if id == IndexUsername then NoEntry else st.index), id));
      if id != IndexUsername {
        RetainAbsent(n, id);
        NormalizeStrictlySorted(n);
      }
    }
  }

  /** Load-all yields the readable records of the index items, no more, in index order. */
  lemma {:induction false} CollectMembers(items: seq<IndexItem>, records: map<string, Credential>)
    ensures |Collect(items, records)| <= |items|
    ensures forall c :: c in Collect(items, records) <==>
      exists i :: 0 <= i < |items| && items[i].id in records && records[items[i].id] == c
    decreases |items|
  {
    if |items| > 0 {
      var init := items[..|items| - 1];
      CollectMembers(init, records);
      forall c ensures c in Collect(items, records) <==>
        exists i :: 0 <= i < |items| && items[i].id in records && records[items[i].id] == c
      {
        if c in Collect(init, records) {
          var i :| 0 <= i < |init| && init[i].id in records && records[init[i].id] == c;
          assert items[i] == init[i];
        }
        if exists i :: 0 <= i < |items| && items[i].id in records && records[items[i].id] == c {
          var i :| 0 <= i < |items| && items[i].id in records && records[items[i].id] == c;
          if i < |items| - 1 {
            assert init[i] == items[i];
          }
        }
      }
    }
  }

  /** Load-all distributes over concatenation of the index: the output follows index order. */
  lemma {:induction false} CollectAppend(a: seq<IndexItem>, b: seq<IndexItem>, records: map<string, Credential>)
    ensures Collect(a + b, records) == Collect(a, records) + Collect(b, records)
    decreases |b|
  {
    if |b| == 0 {
      assert a + b == a;
    } else {
      var b' := b[..|b| - 1];
      assert (a + b)[..|a + b| - 1] == a + b';
      CollectAppend(a, b', records);
    }
  }
}

=== FILE: keychain_index.dfy ===
/**
 * The `{id, label}` index that the credential store keeps under a reserved
 * keychain entry, and the normalisation `write_index` applies before storing
 * it: a stable sort by id followed by removal of consecutive duplicate ids.
 */
module KeychainIndex {
  import opened Common
  import opened IdOrder

  /** One index entry: the keychain username (`id`) of a record and its label (`name`; `label` is a Dafny keyword). */
  datatype IndexItem = IndexItem(id: string, name: string)

  /** The ids that occur in an index. */
  function Ids(s: seq<IndexItem>): set<string> {
    set i | 0 <= i < |s| :: s[i].id
  }

  /** The first item of `s` whose id is `id`, if any. */
  function FirstWithId(s: seq<IndexItem>, id: string): Option<IndexItem> {
    if |s| == 0 then None
    else if s[0].id == id then Some(s[0])
    else FirstWithId(s[1..], id)
  }

  /** Ids never decrease along `s`. */
  ghost predicate Sorted(s: seq<IndexItem>) {
    forall i, j :: 0 <= i < j < |s| ==> Le(s[i].id, s[j].id)
  }

  /** Ids strictly increase along `s`; in particular no id occurs twice. */
  ghost predicate StrictlySorted(s: seq<IndexItem>) {
    forall i, j :: 0 <= i < j < |s| ==> Lt(s[i].id, s[j].id)
  }

  /**
   * `t` is a canonical form of `s`: strictly sorted by id, and holding, for
   * every id, exactly the first item of `s` with that id.
   */
  ghost predicate Canonical(s: seq<IndexItem>, t: seq<IndexItem>) {
    StrictlySorted(t) && forall id :: FirstWithId(t, id) == FirstWithId(s, id)
  }

  /* ---------- Facts about FirstWithId ---------- */

  lemma {:induction false} FirstWithIdFound(s: seq<IndexItem>, id: string)
    ensures FirstWithId(s, id).Some? <==> id in Ids(s)
    ensures FirstWithId(s, id).Some? ==> FirstWithId(s, id).value in s && FirstWithId(s, id).value.id == id
    decreases |s|
  {
    if |s| > 0 {
      FirstWithIdFound(s[1..], id);
      assert Ids(s) == {s[0].id} + Ids(s[1..]) by {
        forall x | x in Ids(s) ensures x in {s[0].id} + Ids(s[1..]) {
          var i :| 0 <= i < |s| && s[i].id == x;
          if i > 0 {
            assert s[1..][i - 1].id == x;
          }
        }
        forall x | x in Ids(s[1..]) ensures x in Ids(s) {
          var i :| 0 <= i < |s[1..]| && s[1..][i].id == x;
          assert s[i + 1].id == x;
        }
      }
    }
  }

  /** In a strictly sorted index every item is the first (indeed the only) one with its id. */
  lemma {:induction false} FirstWithIdOfStrictlySorted(t: seq<IndexItem>, k: nat)
    requires StrictlySorted(t) && k < |t|
    ensures FirstWithId(t, t[k].id) == Some(t[k])
    decreases k
  {
    if k > 0 {
      assert Lt(t[0].id, t[k].id);
      assert t[1..][k - 1] == t[k];
      FirstWithIdOfStrictlySorted(t[1..], k - 1);
    }
  }

  lemma {:induction false} FirstWithIdAppend(a: seq<IndexItem>, b: seq<IndexItem>, id: string)
    ensures FirstWithId(a + b, id) == if FirstWithId(a, id).Some? then FirstWithId(a, id) else FirstWithId(b, id)
    decreases |a|
  {
    if |a| > 0 {
      assert (a + b)[1..] == a[1..] + b;
      FirstWithIdAppend(a[1..], b, id);
    } else {
      assert a + b == b;
    }
  }

  /* ---------- Stable insertion sort by id ---------- */

  /** Places `x` immediately before the first item whose id is not smaller than `x.id`. */
  function InsertById(x: IndexItem, s: seq<IndexItem>): seq<IndexItem> {
    if |s| == 0 then [x]
    else if Le(x.id, s[0].id) then [x] + s
    else [s[0]] + InsertById(x, s[1..])
  }

  /** Stable sort by id: items with equal ids keep their input order, as with `sort_by`. */
  function SortById(s: seq<IndexItem>): seq<IndexItem> {
    if |s| == 0 then [] else InsertById(s[0], SortById(s[1..]))
  }

  lemma {:induction false} InsertByIdPermutes(x: IndexItem, s: seq<IndexItem>)
    ensures multiset(InsertById(x, s)) == multiset(s) + multiset{x}
    decreases |s|
  {
    if |s| > 0 && !Le(x.id, s[0].id) {
      InsertByIdPermutes(x, s[1..]);
      assert s == [s[0]] + s[1..];
    }
  }

  lemma {:induction false} InsertByIdSorted(x: IndexItem, s: seq<IndexItem>)
    requires Sorted(s)
    ensures Sorted(InsertById(x, s))
    decreases |s|
  {
    if |s| == 0 {
    } else if Le(x.id, s[0].id) {
      forall j | 0 <= j < |s| ensures Le(x.id, s[j].id) {
        if j > 0 { LeTransitive(x.id, s[0].id, s[j].id); }
      }
    } else {
      LeTotal(x.id, s[0].id);
      var rest := InsertById(x, s[1..]);
      InsertByIdSorted(x, s[1..]);
      InsertByIdPermutes(x, s[1..]);
      forall j | 0 <= j < |rest| ensures Le(s[0].id, rest[j].id) {
        assert rest[j] in multiset(rest);
        if rest[j] != x {
          assert rest[j] in multiset(s[1..]);
          var k :| 0 <= k < |s[1..]| && s[1..][k] == rest[j];
          assert s[k + 1] == rest[j];
        }
      }
    }
  }

  lemma {:induction false} InsertByIdFirst(x: IndexItem, s: seq<IndexItem>, id: string)
    ensures FirstWithId(InsertById(x, s), id) == if x.id == id then Some(x) else FirstWithId(s, id)
    decreases |s|
  {
    if |s| > 0 && !Le(x.id, s[0].id) {
      LeReflexive(x.id);
      InsertByIdFirst(x, s[1..], id);
    }
  }

  lemma {:induction false} SortByIdSorted(s: seq<IndexItem>)
    ensures Sorted(SortById(s))
    ensures multiset(SortById(s)) == multiset(s)
    decreases |s|
  {
    if |s| > 0 {
      SortByIdSorted(s[1..]);
      InsertByIdSorted(s[0], SortById(s[1..]));
      InsertByIdPermutes(s[0], SortById(s[1..]));
      assert s == [s[0]] + s[1..];
    }
  }

  /** Stability: sorting does not change which item comes first for any id. */
  lemma {:induction false} SortByIdFirst(s: seq<IndexItem>, id: string)
    ensures FirstWithId(SortById(s), id) == FirstWithId(s, id)
    decreases |s|
  {
    if |s| > 0 {
      InsertByIdFirst(s[0], SortById(s[1..]), id);
      SortByIdFirst(s[1..], id);
    }
  }

  /* ---------- Removal of consecutive duplicate ids ---------- */

  /** Drops every item whose id equals that of the last item kept, as `dedup_by` does. */
  function Dedup(s: seq<IndexItem>): seq<IndexItem>
    decreases |s|
  {
    if |s| <= 1 then s
    else if s[0].id == s[1].id then Dedup([s[0]] + s[2..])
    else [s[0]] + Dedup(s[1..])
  }

  lemma {:induction false} DedupSubset(s: seq<IndexItem>)
    ensures forall e :: e in Dedup(s) ==> e in s
    decreases |s|
  {
    if |s| > 1 {
      if s[0].id == s[1].id {
        DedupSubset([s[0]] + s[2..]);
      } else {
        DedupSubset(s[1..]);
      }
    }
  }

  lemma {:induction false} DedupFirst(s: seq<IndexItem>, id: string)
    ensures FirstWithId(Dedup(s), id) == FirstWithId(s, id)
    decreases |s|
  {
    if |s| > 1 {
      if s[0].id == s[1].id {
        var t := [s[0]] + s[2..];
        DedupFirst(t, id);
        assert t[1..] == s[2..];
        assert s[1..][1..] == s[2..];
      } else {
        DedupFirst(s[1..], id);
      }
    }
  }

  lemma {:induction false} DedupStrictlySorted(s: seq<IndexItem>)
    requires Sorted(s)
    ensures StrictlySorted(Dedup(s))
    decreases |s|
  {
    if |s| > 1 {
      if s[0].id == s[1].id {
        var t := [s[0]] + s[2..];
        assert Sorted(t) by {
          forall i, j | 0 <= i < j < |t| ensures Le(t[i].id, t[j].id) {
            if i == 0 { assert t[j] == s[j + 1]; } else { assert t[i] == s[i + 1] && t[j] == s[j + 1]; }
          }
        }
        DedupStrictlySorted(t);
      } else {
        var rest := Dedup(s[1..]);
        DedupStrictlySorted(s[1..]);
        DedupSubset(s[1..]);
        forall j | 0 <= j < |rest| ensures Lt(s[0].id, rest[j].id) {
          assert rest[j] in s[1..];
          var k :| 0 <= k < |s[1..]| && s[1..][k] == rest[j];
          assert Le(s[0].id, s[k + 1].id);
          if s[0].id == rest[j].id {
            if k > 0 {
              assert Le(s[1].id, s[k + 1].id);
              LeAntisymmetric(s[0].id, s[1].id);
            }
          }
        }
      }
    }
  }

  /* ---------- The normalisation applied by write_index ---------- */

  /** The index exactly as `write_index` stores it: sorted by id, then consecutive duplicate ids removed. */
  function Normalize(s: seq<IndexItem>): seq<IndexItem> {
    Dedup(SortById(s))
  }

  /**
   * The stored index is strictly sorted by id (so no id occurs twice) and, for
   * every id, holds exactly the first input item with that id.
   */
  lemma NormalizeCanonical(s: seq<IndexItem>)
    ensures Canonical(s, Normalize(s))
  {
    SortByIdSorted(s);
    DedupStrictlySorted(SortById(s));
    forall id ensures FirstWithId(Normalize(s), id) == FirstWithId(s, id) {
      DedupFirst(SortById(s), id);
      SortByIdFirst(s, id);
    }
  }

  /** Two strictly sorted indexes that agree on the first item for every id are equal. */
  lemma {:induction false} StrictlySortedDetermined(t: seq<IndexItem>, u: seq<IndexItem>)
    requires StrictlySorted(t) && StrictlySorted(u)
    requires forall id :: FirstWithId(t, id) == FirstWithId(u, id)
    ensures t == u
    decreases |t|
  {
    if |t| > 0 {
      FirstWithIdOfStrictlySorted(t, 0);
      FirstWithIdFound(u, t[0].id);
      assert |u| > 0;
      FirstWithIdOfStrictlySorted(u, 0);
      FirstWithIdFound(t, u[0].id);
      // t[0] occurs in u and u[0] occurs in t, so neither id is smaller.
      assert Le(u[0].id, t[0].id) by {
        var j :| 0 <= j < |u| && u[j] == t[0];
        if j > 0 { assert Lt(u[0].id, u[j].id); } else { LeReflexive(u[0].id); }
      }
      assert Le(t[0].id, u[0].id) by {
        var j :| 0 <= j < |t| && t[j] == u[0];
        if j > 0 { assert Lt(t[0].id, t[j].id); } else { LeReflexive(t[0].id); }
      }
      LeAntisymmetric(t[0].id, u[0].id);
      assert t[0] == u[0];
      forall id ensures FirstWithId(t[1..], id) == FirstWithId(u[1..], id) {
        if id == t[0].id {
          NoLaterSameId(t, id);
          NoLaterSameId(u, id);
        } else {
          assert FirstWithId(t, id) == FirstWithId(t[1..], id);
          assert FirstWithId(u, id) == FirstWithId(u[1..], id);
        }
      }
      StrictlySortedDetermined(t[1..], u[1..]);
      assert t == [t[0]] + t[1..];
      assert u == [u[0]] + u[1..];
    } else if |u| > 0 {
      FirstWithIdOfStrictlySorted(u, 0);
      assert false;
    }
  }

  lemma NoLaterSameId(t: seq<IndexItem>, id: string)
    requires StrictlySorted(t) && |t| > 0 && t[0].id == id
    ensures FirstWithId(t[1..], id) == None
  {
    forall j | 0 <= j < |t[1..]| ensures t[1..][j].id != id {
      assert Lt(t[0].id, t[j + 1].id);
    }
    FirstWithIdFound(t[1..], id);
  }

  /** `Normalize` is the unique canonical form: any canonical `t` of `s` is `Normalize(s)`. */
  lemma NormalizeUnique(s: seq<IndexItem>, t: seq<IndexItem>)
    ensures Canonical(s, t) <==> t == Normalize(s)
  {
    NormalizeCanonical(s);
    if Canonical(s, t) {
      StrictlySortedDetermined(t, Normalize(s));
    }
  }

  /** Writing an index that is already strictly sorted stores it unchanged. */
  lemma NormalizeStrictlySorted(s: seq<IndexItem>)
    requires StrictlySorted(s)
    ensures Normalize(s) == s
  {
    NormalizeUnique(s, s);
  }

  /** Normalisation is idempotent. */
  lemma NormalizeIdempotent(s: seq<IndexItem>)
    ensures Normalize(Normalize(s)) == Normalize(s)
  {
    NormalizeCanonical(s);
    NormalizeStrictlySorted(Normalize(s));
  }

  /** Normalisation keeps exactly the ids of its input. */
  lemma NormalizeIds(s: seq<IndexItem>)
    ensures Ids(Normalize(s)) == Ids(s)
  {
    NormalizeCanonical(s);
    forall id ensures id in Ids(Normalize(s)) <==> id in Ids(s) {
      FirstWithIdFound(s, id);
      FirstWithIdFound(Normalize(s), id);
    }
  }

  /**
   * Appending an item with a fresh id to a strictly sorted index and
   * normalising yields an index holding exactly the old items and the new one.
   */
  lemma NormalizeAppendFresh(s: seq<IndexItem>, x: IndexItem)
    requires StrictlySorted(s) && x.id !in Ids(s)
    ensures forall e :: e in Normalize(s + [x]) <==> e in s || e == x
  {
    var n := Normalize(s + [x]);
    NormalizeCanonical(s + [x]);
    FirstWithIdFound(s, x.id);
    forall e ensures e in n <==> e in s || e == x {
      FirstWithIdAppend(s, [x], e.id);
      if e in n {
        var k :| 0 <= k < |n| && n[k] == e;
        FirstWithIdOfStrictlySorted(n, k);
        FirstWithIdFound(s, e.id);
      } else if e in s {
        var k :| 0 <= k < |s| && s[k] == e;
        FirstWithIdOfStrictlySorted(s, k);
        FirstWithIdFound(n, e.id);
      } else if e == x {
        FirstWithIdFound(n, x.id);
      }
    }
  }

  /* ---------- Removal by id, as delete_credentials applies to the index ---------- */

  /** The items of `s` whose id differs from `id`, in their order (`retain`). */
  function Retain(s: seq<IndexItem>, id: string): seq<IndexItem> {
    if |s| == 0 then []
    else (if s[0].id != id then [s[0]] else []) + Retain(s[1..], id)
  }

  lemma {:induction false} RetainMembers(s: seq<IndexItem>, id: string)
    ensures forall e :: e in Retain(s, id) <==> e in s && e.id != id
    ensures |Retain(s, id)| <= |s|
    decreases |s|
  {
    if |s| > 0 {
      RetainMembers(s[1..], id);
      assert s == [s[0]] + s[1..];
    }
  }

  /** Retaining distributes over concatenation, so the kept items stay in their relative order. */
  lemma {:induction false} RetainAppend(a: seq<IndexItem>, b: seq<IndexItem>, id: string)
    ensures Retain(a + b, id) == Retain(a, id) + Retain(b, id)
    decreases |a|
  {
    if |a| == 0 {
      assert a + b == b;
    } else {
      assert (a + b)[1..] == a[1..] + b;
      RetainAppend(a[1..], b, id);
    }
  }

  lemma {:induction false} RetainStrictlySorted(s: seq<IndexItem>, id: string)
    requires StrictlySorted(s)
    ensures StrictlySorted(Retain(s, id))
    decreases |s|
  {
    if |s| > 0 {
      RetainStrictlySorted(s[1..], id);
      RetainMembers(s[1..], id);
      var r := Retain(s[1..], id);
      forall j | 0 <= j < |r| ensures Lt(s[0].id, r[j].id) {
        var k :| 0 <= k < |s[1..]| && s[1..][k] == r[j];
        assert s[k + 1] == r[j];
      }
    }
  }

  lemma {:induction false} RetainAbsent(s: seq<IndexItem>, id: string)
    requires id !in Ids(s)
    ensures Retain(s, id) == s
    decreases |s|
  {
    if |s| > 0 {
      assert s[0].id in Ids(s);
      assert Ids(s[1..]) <= Ids(s) by {
        forall x | x in Ids(s[1..]) ensures x in Ids(s) {
          var i :| 0 <= i < |s[1..]| && s[1..][i].id == x;
          assert s[i + 1].id == x;
        }
      }
      RetainAbsent(s[1..], id);
      assert s == [s[0]] + s[1..];
    }
  }
}
